=== FILE: README.md ===
# Classroom attendance: face-matching attendance decisions and in-memory stores

This project is a Dafny model of the sequential logic inside a classroom-attendance web application. The model covers four pieces:

- **Per-frame attendance decision** of the enhanced facial-recognition panel (`FaceRecognition`, `FaceOverlay`, `FaceSession`). For each detected face, the decision:
  - scores quality,
  - consults the matcher only above a quality floor of 0.5,
  - keeps a match only when the matcher names a student,
  - auto-marks a student whose match confidence is strictly above the configured threshold and who is not yet in the session's marked set.

  Each face then gets a green, yellow or red overlay colour, and the panel shows four summary counts. Starting and stopping the camera bound a session, and stopping empties the marked set. Quality scoring, descriptor matching and liveness detection live in a library outside this model. They are the opaque `Recogniser` input: a quality function, a match function and the frame's liveness verdict.
- **Recommendation store** behind the AI-recommendations endpoint (`Recommendations`).
  - `GET` applies three optional equality filters (status, type, priority). A parameter that is absent, empty or `"all"` does not filter.
  - `PATCH` sets the status of the first recommendation with a given id. It answers 400 when the id or status is missing and 404 when the id is unknown.
- **Attendance record store** behind the attendance endpoint (`AttendanceApi`, with the record type in `AttendanceRecords`).
  - `GET` filters by calendar day and by student, then cuts the list to `limit` records (default 50). `total` reports the count before the cut.
  - `POST` puts one simulated recognition at the front of the store.
- **Attendance session panel** (`AttendanceSystem`). It has a start/stop toggle for scanning. Each detected face adds a record at the front of the list. The panel also shows today's present, late and absent figures and the first five of today's records in list order.

All state is immutable: the mutable arrays, React state and `Set` of the source become values passed into pure functions and returned from them. `Options` and `Seqs` are helper modules. `Seqs.Filter` models `Array.prototype.filter` and is proved order-preserving. `Seqs.Count` models `filter(...).length`.

Three facts about the code shape the model:
- Liveness never gates marking: the auto-mark condition reads only the match (components/enhanced-facial-recognition.tsx:105; see `FaceRecognition.MarkingIgnoresLiveness`).
- The thresholds are strict (`>`): quality above 0.5 for matching and confidence above the configured threshold for marking (components/enhanced-facial-recognition.tsx:94, 105).
- Every record the panel or the endpoint creates is "present", with no late cut-off (components/attendance-system.tsx:75, app/api/attendance/route.ts:66). An auto-mark's status is decided inside the student database's `markAttendance`, which is not part of this model, so a `Mark` carries no status.

JavaScript truthiness is modelled where the code relies on it. An empty string counts as absent for the match's `studentId`, the `GET` query parameters and the `PATCH` fields. `Number.parseInt` on the `limit` parameter can give NaN, for which `slice` returns nothing, or a negative number, for which `slice` drops that many records from the end. An unparsable `date` parameter becomes an invalid date, which matches no record.

## Model

| member | source | states |
|---|---|---|
| FaceRecognition.MatchOf | components/enhanced-facial-recognition.tsx:93-103 | a face has a student match iff it has a descriptor, its quality score is strictly above 0.5 and the matcher names a non-empty student id; the match copies that id, name, roll number and confidence |
| FaceRecognition.FrameLiveness | components/enhanced-facial-recognition.tsx:81-84 | the frame's single liveness verdict exists iff liveness detection is enabled and the frame has at least one face, and then it is the detector's verdict |
| FaceRecognition.Enhance | components/enhanced-facial-recognition.tsx:89-141 | an enhanced face keeps the detected face and its position, carries the face's quality assessment and gated match, and carries the frame's liveness verdict and confidence exactly when there is one |
| FaceRecognition.EnhanceAll | components/enhanced-facial-recognition.tsx:86-142 | one enhanced face per detected face, in detection order, the i-th numbered i |
| FaceRecognition.AutoMark | components/enhanced-facial-recognition.tsx:104-118 | sequential check-then-add marking: the final set is the initial set plus the marked students, no student is marked twice, and no student already in the set is marked |
| FaceRecognition.Candidates | components/enhanced-facial-recognition.tsx:105 | every candidate mark has a confidence strictly above the threshold, at most one per face |
| FaceRecognition.AutoMarkExactIds | components/enhanced-facial-recognition.tsx:105-118 | the students marked in a frame are exactly the students of qualifying faces (matched, confidence above threshold) that were not marked before |
| FaceRecognition.AutoMarkSound | components/enhanced-facial-recognition.tsx:105-116 | the marks made are, in order, a subsequence of the qualifying faces' marks, each with the face's student id and match confidence |
| FaceRecognition.AutoMarkAboveThreshold | components/enhanced-facial-recognition.tsx:105-116 | every mark the pass makes carries a match confidence strictly above the configured threshold |
| FaceRecognition.AutoMarkFirstOccurrence | components/enhanced-facial-recognition.tsx:105-118 | every mark made is the first qualifying face's mark naming its student, so the confidence passed on for a student is that of the first face matched to them |
| FaceRecognition.FrameFaces | components/enhanced-facial-recognition.tsx:86-142 | one enhanced face per detected face, numbered in order, each `Enhance` of its face with the frame's liveness verdict |
| FaceRecognition.ProcessFrameFaces | components/enhanced-facial-recognition.tsx:86-142 | the faces a frame records do not depend on the marked set it starts from |
| FaceRecognition.AutoMarkReadsOnlyMatches | components/enhanced-facial-recognition.tsx:105 | the marking decision reads nothing of a face but its student match |
| FaceRecognition.ProcessFrame | components/enhanced-facial-recognition.tsx:76-144 | one enhanced face per detected face in order; no match without a descriptor and quality above 0.5; each face is exactly `Enhance` of its detected face, so all faces share the one liveness verdict and its confidence; the marked set only grows, by exactly the marked students; marks are distinct, new to the session, and exactly the unmarked qualifying students; when several qualifying faces name one student, the mark kept is the first face's; every mark's confidence is strictly above the threshold |
| FaceRecognition.MarkingIgnoresLiveness | components/enhanced-facial-recognition.tsx:105 | neither the liveness switch nor the liveness verdict changes which students a frame marks or the marked set after it |
| FaceRecognition.AsWrittenMarks | components/enhanced-facial-recognition.tsx:105-116 | the face-by-face marks of the source's loop are exactly the qualifying faces' marks whose student is not in the frame-start set, in face order |
| FaceRecognition.AutoMarkAsWritten | components/enhanced-facial-recognition.tsx:105-118 | as the source checks it, against the set captured when the frame began: the marks are all qualifying faces' marks whose student was not in that set, repeats included |
| FaceRecognition.ProcessFrameAsWritten | components/enhanced-facial-recognition.tsx:76-144 | the source's frame: the same enhanced faces as the sequential frame, with marks decided against the frame-start set |
| FaceRecognition.SameStudentTwiceInOneFrame | components/enhanced-facial-recognition.tsx:105-118 | two qualifying faces matched to the same unmarked student: the source's check marks the student twice, the sequential one once |
| FaceOverlay.OverlayColour | components/enhanced-facial-recognition.tsx:150-161 | green iff recognised, quality above 0.7 and not flagged as a spoof (no verdict counts as live); yellow iff recognised but not green; red iff unrecognised |
| FaceOverlay.SpoofIsNeverGreen | components/enhanced-facial-recognition.tsx:153-160 | a face flagged as not live is never green, and is yellow when recognised |
| FaceOverlay.Stats | components/enhanced-facial-recognition.tsx:321-326 | total is the number of faces, and the recognised, high-quality (quality above 0.7) and live (not flagged as a spoof) counts are the lengths of the filters selecting those faces; recognised is zero iff no face is recognised, and live equals total iff every face counts as live |
| FaceOverlay.ColoursPartitionFaces | components/enhanced-facial-recognition.tsx:150-161 | green plus yellow faces are the recognised count, recognised plus red faces are the total, and green faces are at most the high-quality and at most the live count |
| FaceOverlay.FrameAllLiveWhenDisabled | components/enhanced-facial-recognition.tsx:81-84 | with liveness detection off, every face of a frame counts as live |
| FaceOverlay.FrameRecognisedAreGated | components/enhanced-facial-recognition.tsx:93-94 | a frame's recognised faces are at most its faces that have a descriptor and quality above 0.5 |
| FaceSession.FailureMessage | components/enhanced-facial-recognition.tsx:251 | the camera error message is the failure's own message when it has one, and a non-empty fallback otherwise |
| FaceSession.StartCamera | components/enhanced-facial-recognition.tsx:216-253 | without media devices only the error changes; a granted stream makes the camera active, open and loading with no error; a refused one stops loading and reports the failure; faces and marked set are untouched |
| FaceSession.StopCamera | components/enhanced-facial-recognition.tsx:255-264 | after stopping, the camera is inactive, closed and not loading, with no detected faces and an empty marked set; the error is kept |
| FaceSession.Tick | components/enhanced-facial-recognition.tsx:62-144 | an inactive camera or a missing frame changes nothing; every mark's confidence is strictly above the threshold; otherwise the detected faces become the frame's enhanced faces, the tick's marks are the frame's marks, and the marked set grows by exactly those distinct, new marks, which are the frame's unmarked qualifying students |
| FaceSession.RunSession | components/enhanced-facial-recognition.tsx:295-311 | over any run of frames no student is marked twice or re-marked; every mark, with its confidence, is the mark of a qualifying face in one of the run's detected frames, so its confidence is strictly above the threshold; the marked set ends as the starting set plus the marked students; and, while the camera is active, the marked students are exactly the students of qualifying faces in the run's detected frames less those marked before |
| FaceSession.FreshSessionMarksEachStudentOnce | components/enhanced-facial-recognition.tsx:255-264 | a session started after a stop marks each student at most once, and its marked set is exactly the students it marked |
| FaceSession.FirstSessionMarksSeen | components/enhanced-facial-recognition.tsx:48-53 | starting the camera on the panel as first rendered, a run marks each student it sees qualifying exactly once and ends with exactly those students marked |
| Recommendations.List | app/api/ai/recommendations/route.ts:46-71 | the listing equals one pass filtering the store by all constraining parameters together, and total is its length |
| Recommendations.FilterStep | app/api/ai/recommendations/route.ts:55-65 | one optional filter (applied only when the parameter is present, non-empty and not "all") equals filtering by "passes that parameter" |
| Recommendations.NarrowInOnePass | app/api/ai/recommendations/route.ts:53-65 | the status, type and priority filters in turn equal one filter by all three conditions |
| Recommendations.ListContents | app/api/ai/recommendations/route.ts:53-71 | the listing is an order-preserving subsequence of the store holding exactly the stored recommendations matching every constraining filter |
| Recommendations.UnconstrainedParametersAreIgnored | app/api/ai/recommendations/route.ts:55-65 | a status, type or priority that is absent, empty or "all" gives the same listing as leaving it out; with none constraining, the listing is the whole store |
| Recommendations.FindIndex | app/api/ai/recommendations/route.ts:86 | returns the first position holding the id, or nothing iff no recommendation has it |
| Recommendations.Patch | app/api/ai/recommendations/route.ts:77-100 | status code 500 iff the body is not JSON or is `null`; 400 iff id or status is missing or empty; 404 iff both are given and no recommendation has the id; every error leaves the store unchanged; on success only the status of the first recommendation with the id changes, to the given value, and the response carries it |
| Recommendations.PatchIdempotent | app/api/ai/recommendations/route.ts:86-91 | applying the same patch twice gives the same store and response as applying it once |
| Recommendations.PatchThenListByStatus | app/api/ai/recommendations/route.ts:55-57 | after a successful patch, listing by the new status (other than "all") finds the patched recommendation |
| AttendanceRecords.RecordsOn | components/attendance-system.tsx:81-83 | today's records are an order-preserving subsequence of the store, all on that day, holding every stored record on that day, and as many as the store holds on that day |
| AttendanceRecords.RecordsOnDetermined | components/attendance-system.tsx:81-83 | any order-preserving selection of records on the day, as many as the store holds on that day, is that day's records, so the contract of `RecordsOn` fixes its result, duplicates included |
| AttendanceApi.PageEnd | app/api/attendance/route.ts:87-102 | the page ends at min(limit, length), with limit 50 by default, length+limit (at least 0) for a negative limit, and 0 for NaN |
| AttendanceApi.Filtered | app/api/attendance/route.ts:89-100 | the day filter then the student filter equals one pass by both conditions |
| AttendanceApi.FilteredInOnePass | app/api/attendance/route.ts:91-100 | the two optional filters applied in turn equal a single filter by their conjunction |
| AttendanceApi.List | app/api/attendance/route.ts:102-108 | the returned records are the first page of the filtered records and total is the filtered count before the cut, so at least the number returned |
| AttendanceApi.ListContents | app/api/attendance/route.ts:89-102 | the returned records are an order-preserving subsequence of the store, on the requested day, of the requested student, and none for an invalid date |
| AttendanceApi.DefaultListing | app/api/attendance/route.ts:87 | with no parameters the listing is the first 50 stored records and total is the store size |
| AttendanceApi.Post | app/api/attendance/route.ts:40-70 | an unreadable body leaves the store unchanged with a server error; otherwise exactly one new record, present and by facial recognition, for the chosen mock student with the given confidence, id and day, is put at index 0 |
| AttendanceApi.PostShiftsOlderRecords | app/api/attendance/route.ts:70 | after a post the older records follow the new one, each shifted by one and unchanged |
| AttendanceApi.PostThenList | app/api/attendance/route.ts:70-107 | a record posted today is listed first for today and its student, and raises that total by one |
| AttendanceSystem.StartSession | components/attendance-system.tsx:57-61 | scanning is on and the current session is the fresh id; records unchanged |
| AttendanceSystem.StopSession | components/attendance-system.tsx:63-66 | scanning is off and there is no current session; records unchanged |
| AttendanceSystem.StartThenStop | components/attendance-system.tsx:57-66 | stopping a just-started session leaves the panel as stopping it directly would |
| AttendanceSystem.HandleFaceDetected | components/attendance-system.tsx:68-79 | exactly one record with the given id, name and confidence, present and by facial recognition, goes in front, and the previous records follow unchanged; the toggle is untouched |
| AttendanceSystem.Summarise | components/attendance-system.tsx:81-87 | recorded is the number of today's records; present and late are the lengths of today's records filtered by that status; present plus late plus absent-status records equals recorded; absent is 25 minus recorded, negative exactly when there are more than 25 |
| AttendanceSystem.StatusesPartition | components/attendance-system.tsx:85-86 | present, late and absent-status counts add up to the number of records |
| AttendanceSystem.DetectionCountsAsPresent | components/attendance-system.tsx:68-87 | a detection today raises recorded and present by one, lowers absent by one, and leaves late alone |
| AttendanceSystem.AbsentGoesNegative | components/attendance-system.tsx:163 | twenty-six detections today, of any one student, on an empty panel leave the absent figure at -1 |
| AttendanceSystem.RecentRecords | components/attendance-system.tsx:196 | the camera view gets a prefix of today's records of length min(5, their number), all from today |

## Findings

| source | as written | input that shows it | evidently intended | confidence | as-written member | corrected member |
|---|---|---|---|---|---|---|
| components/enhanced-facial-recognition.tsx:105-118 | each face is checked against `attendanceMarked` as captured when the frame began. `setAttendanceMarked` does not change that captured set, so a mark made for one face is invisible to the later faces of the same frame | two faces in one frame, both with quality above 0.5 and matched to the same unmarked student with confidence above the threshold: `markAttendance` is called twice | at most one mark per student per session, checking each face against the set as left by the faces before it | not executed; high that the code does this, medium that it matters in practice (it needs two faces resolving to one student in one frame) | FaceRecognition.AutoMarkAsWritten, FaceRecognition.ProcessFrameAsWritten, FaceRecognition.SameStudentTwiceInOneFrame | FaceRecognition.AutoMark, FaceRecognition.ProcessFrame |

## Left out

- FaceRecognition.ProcessFrame: models the intended sequential check-then-add. At runtime the frame loop keeps calling the `processFrame` created when the effect last ran, because the effect's dependencies omit `attendanceMarked`, and `setAttendanceMarked` is asynchronous. So later frames can also see a stale set and re-mark a student. Both are React scheduling artefacts, not sequential logic.
- Quality scoring, descriptor matching, liveness detection and face detection: their library is not part of this model, so they are the opaque `Recogniser` and the detected-faces input.
- `studentDB.markAttendance`, `notificationService`, the `localStorage` session-subject lookup and `console.log`: foreign side effects. A mark is modelled only as a `Mark` event (student id and confidence).
- An exception thrown by the matcher part-way through a frame: not modelled. Detection failure and a video that is not ready are the `None` frame, which changes nothing.
- Camera acquisition details, the `requestAnimationFrame` loop and its cancellation, canvas drawing (labels, landmarks, badges), the settings panel's `updateSettings`, the JSON export download and all JSX rendering: UI and browser I/O.
- `Date.now()`-based ids and `toDateString()`: ids are fresh inputs and timestamps are abstracted to a day number.
- The random student and confidence choice of the attendance `POST` and the 1.5 s delay: the choice and confidence are inputs. The choice is limited to the five mock students, since it indexes them. The confidence is any number: the source draws it from [0.85, 0.95), but nothing in `POST` depends on that range.
- The 500 branches of the two `GET` handlers: the modelled listing logic does not throw. The unreadable-body 500s of `POST` and `PATCH` are modelled.
- Recommendations.Patch: `id` and `status` are modelled as strings. A JSON number, boolean or object in the body would fail the id comparison or be written into `status` as is, and is not modelled.
- The simulated camera (`components/attendance-camera.tsx`), the random descriptors and canvas helpers of `lib/face-recognition-utils.ts`, the statistics script `scripts/data_processor.py`, and the page layouts `app/attendance/page.tsx` and `app/teacher/page.tsx`: random simulation, floating-point statistics with file I/O, and layout composition.

=== FILE: attendance_api.dfy ===
/** The in-memory store behind the attendance endpoint: `POST` records a
    (simulated) face recognition at the front of the store, and `GET` lists
    records filtered by day and student, cut to a page. */
module AttendanceApi {
  import opened Options
  import opened Seqs
  import opened AttendanceRecords

  /** The `date` parameter: absent (or empty), a date on some day, or a
      string that parses to an invalid date, whose day string matches no
      stored record's. */
  datatype DateParam = NoDate | Date(day: int) | InvalidDate

  /** The `limit` parameter after `parseInt`: absent (or empty) means the
      default, and an unparsable string yields NaN. */
  datatype LimitParam = DefaultLimit | Limit(n: int) | NotANumber

  const DefaultPageSize: nat := 50

  datatype ListResponse = ListResponse(records: seq<Record>, total: nat)

  /** Where `slice(0, limit)` ends on a list of `len` elements: a negative
      limit counts from the end, NaN acts as 0, and the end never passes
      the list. */
  function PageEnd(len: nat, limit: LimitParam): (e: nat)
    ensures e <= len
    ensures limit.DefaultLimit? ==> e == if len < DefaultPageSize then len else DefaultPageSize
    ensures limit.Limit? && limit.n >= 0 ==> e == if len < limit.n then len else limit.n
    ensures limit.Limit? && limit.n < 0 ==> e == if len + limit.n < 0 then 0 else len + limit.n
    ensures limit.NotANumber? ==> e == 0
  {
    var n := match limit
      case DefaultLimit => DefaultPageSize as int
      case Limit(k) => k
      case NotANumber => 0;
    if n >= 0 then (if n < len then n else len)
    else if len + n < 0 then 0 else len + n
  }

  function DatePasses(date: DateParam): Record -> bool {
    (r: Record) => match date
      case NoDate => true
      case Date(d) => r.day == d
      case InvalidDate => false
  }

  function StudentPasses(studentId: Option<string>): Record -> bool {
    (r: Record) => !Truthy(studentId) || r.studentId == studentId.value
  }

  function Wanted(date: DateParam, studentId: Option<string>): Record -> bool {
    (r: Record) => DatePasses(date)(r) && StudentPasses(studentId)(r)
  }

  /** The day filter, applied only when a date is given. */
  function ByDate(store: seq<Record>, date: DateParam): seq<Record> {
    if date.NoDate? then store else Filter(DatePasses(date), store)
  }

  /** The student filter, applied only when a student id is given. */
  function ByStudent(store: seq<Record>, studentId: Option<string>): seq<Record> {
    if !Truthy(studentId) then store else Filter(StudentPasses(studentId), store)
  }

  /** The records passing the day filter, then the student filter. */
  function Filtered(store: seq<Record>, date: DateParam, studentId: Option<string>): (rs: seq<Record>)
    ensures rs == Filter(Wanted(date, studentId), store)
  {
    FilteredInOnePass(store, date, studentId);
    ByStudent(ByDate(store, date), studentId)
  }

  /** The two optional filters in turn are one filter by both conditions. */
  lemma FilteredInOnePass(store: seq<Record>, date: DateParam, studentId: Option<string>)
    ensures ByStudent(ByDate(store, date), studentId) == Filter(Wanted(date, studentId), store)
  {
    if date.NoDate? {
      FilterKeepsAll(DatePasses(date), store);
    }
    if !Truthy(studentId) {
      FilterKeepsAll(StudentPasses(studentId), ByDate(store, date));
    }
    FilterFilter(DatePasses(date), StudentPasses(studentId), Wanted(date, studentId), store);
  }

  /** `GET`: the filtered records cut to the page, with the filtered count
      before the cut. */
  function List(store: seq<Record>, date: DateParam, studentId: Option<string>, limit: LimitParam): (resp: ListResponse)
    ensures resp.total == |Filtered(store, date, studentId)|
    ensures resp.records == Filtered(store, date, studentId)[..PageEnd(resp.total, limit)]
    ensures |resp.records| <= resp.total
  {
    var rs := Filtered(store, date, studentId);
    ListResponse(rs[..PageEnd(|rs|, limit)], |rs|)
  }

  /** What a listing holds: stored records, in store order, on the requested
      day and of the requested student when those are given. */
  lemma ListContents(store: seq<Record>, date: DateParam, studentId: Option<string>, limit: LimitParam)
    ensures var rs := List(store, date, studentId, limit).records;
      && IsSubsequence(rs, store)
      && (forall i :: 0 <= i < |rs| ==> rs[i] in store)
      && (date.Date? ==> forall i :: 0 <= i < |rs| ==> rs[i].day == date.day)
      && (date.InvalidDate? ==> rs == [])
      && (Truthy(studentId) ==> forall i :: 0 <= i < |rs| ==> rs[i].studentId == studentId.value)
  {
    var rs := List(store, date, studentId, limit).records;
    var all := Filtered(store, date, studentId);
    assert |rs| <= |all|;
    SubsequencePrefix(all, store, |rs|);
    assert all[..|rs|] == rs;
    forall i | 0 <= i < |rs|
      ensures rs[i] in store
      ensures date.Date? ==> rs[i].day == date.day
      ensures !date.InvalidDate?
      ensures Truthy(studentId) ==> rs[i].studentId == studentId.value
    {
      assert rs[i] == all[i];
      assert DatePasses(date)(rs[i]) && StudentPasses(studentId)(rs[i]);
    }
  }

  /** With no parameters the listing is the first fifty stored records, and
      the total is the size of the store. */
  lemma DefaultListing(store: seq<Record>)
    ensures List(store, NoDate, None, DefaultLimit).total == |store|
    ensures List(store, NoDate, None, DefaultLimit).records
         == store[..if |store| < DefaultPageSize then |store| else DefaultPageSize]
  {
    forall i | 0 <= i < |store|
      ensures Wanted(NoDate, None)(store[i])
    {
      assert DatePasses(NoDate)(store[i]) && StudentPasses(None)(store[i]);
    }
    FilterKeepsAll(Wanted(NoDate, None), store);
  }

  // ----- POST ----------------------------------------------------------------

  datatype MockStudent = MockStudent(id: string, name: string)

  /** The students a simulated recognition picks from. */
  const MockStudents: seq<MockStudent> := [
    MockStudent("STU004", "David Wilson"),
    MockStudent("STU005", "Emma Brown"),
    MockStudent("STU006", "Frank Miller"),
    MockStudent("STU007", "Grace Taylor"),
    MockStudent("STU008", "Henry Davis")]

  datatype PostResponse = ServerError | Recognised(record: Record)

  datatype PostOutcome = PostOutcome(store: seq<Record>, response: PostResponse)

  /** `POST`: an unreadable body is a server error and records nothing;
      otherwise a record for the chosen mock student, present and by facial
      recognition, goes to the front of the store. The random choice, the
      random confidence, the fresh id and today's day are inputs. */
  function Post(store: seq<Record>, bodyReadable: bool, choice: nat, confidence: real,
                recordId: string, today: int): (o: PostOutcome)
    requires choice < |MockStudents|
    ensures !bodyReadable ==> o.store == store && o.response == ServerError
    ensures bodyReadable ==> o.response.Recognised? && o.store == [o.response.record] + store
    ensures bodyReadable ==>
      var r := o.response.record;
      && r.id == recordId && r.day == today && r.confidence == confidence
      && r.studentId == MockStudents[choice].id && r.studentName == MockStudents[choice].name
      && r.status == Present && r.via == FacialRecognition
  {
    if !bodyReadable then PostOutcome(store, ServerError)
    else
      var student := MockStudents[choice];
      var r := Record(recordId, student.id, student.name, today, confidence, Present, FacialRecognition);
      PostOutcome([r] + store, Recognised(r))
  }

  /** A post shifts the older records back by one and changes none of them. */
  lemma PostShiftsOlderRecords(store: seq<Record>, choice: nat, confidence: real, recordId: string, today: int)
    requires choice < |MockStudents|
    ensures var s := Post(store, true, choice, confidence, recordId, today).store;
      |s| == |store| + 1 && forall i :: 0 <= i < |store| ==> s[i + 1] == store[i]
  {
  }

  /** A record posted today is the first one listed for today, and for its
      student, and it is counted in the totals. */
  lemma PostThenList(store: seq<Record>, choice: nat, confidence: real, recordId: string, today: int)
    requires choice < |MockStudents|
    ensures var o := Post(store, true, choice, confidence, recordId, today);
      var before := List(store, Date(today), Some(MockStudents[choice].id), DefaultLimit);
      var after := List(o.store, Date(today), Some(MockStudents[choice].id), DefaultLimit);
      && after.total == before.total + 1
      && after.records[0] == o.response.record
  {
    var o := Post(store, true, choice, confidence, recordId, today);
    var w := Wanted(Date(today), Some(MockStudents[choice].id));
    FilterCons(w, o.response.record, store);
  }
}

=== FILE: attendance_records.dfy ===
/** The attendance record shared by the attendance endpoint and the
    attendance panel. Timestamps are abstracted to the calendar day they fall
    on, which is all either of them compares. */
module AttendanceRecords {
  import opened Seqs

  datatype Status = Present | Absent | Late

  datatype Method = FacialRecognition | Manual

  datatype Record = Record(
    id: string,
    studentId: string,
    studentName: string,
    day: int,
    confidence: real,
    status: Status,
    via: Method)

  function OnDay(day: int): Record -> bool { (r: Record) => r.day == day }

  /** The records that fall on `day`, in their stored order. */
  function RecordsOn(records: seq<Record>, day: int): (rs: seq<Record>)
    ensures forall i :: 0 <= i < |rs| ==> rs[i].day == day && rs[i] in records
    ensures forall i :: 0 <= i < |records| && records[i].day == day ==> records[i] in rs
    ensures IsSubsequence(rs, records)
    ensures |rs| == Count(OnDay(day), records)
  {
    CountIsFilterLength(OnDay(day), records);
    Filter(OnDay(day), records)
  }

  /** The contract of `RecordsOn` determines it: an order-preserving
      selection of records on `day`, as many as the store holds on that day,
      is that day's records. */
  lemma RecordsOnDetermined(records: seq<Record>, day: int, rs: seq<Record>)
    requires IsSubsequence(rs, records)
    requires forall i :: 0 <= i < |rs| ==> rs[i].day == day
    requires |rs| == Count(OnDay(day), records)
    ensures rs == RecordsOn(records, day)
  {
    FilterUnique(OnDay(day), rs, records);
  }

  /** Putting a record in front of the store puts it in front of its day. */
  lemma RecordsOnCons(r: Record, records: seq<Record>, day: int)
    ensures RecordsOn([r] + records, day) == (if r.day == day then [r] else []) + RecordsOn(records, day)
  {
    FilterCons(OnDay(day), r, records);
  }
}

=== FILE: attendance_system.dfy ===
/** The attendance session panel: a start/stop toggle for scanning, a record
    put in front of the list for each face the camera reports, and today's
    present, late and absent figures. */
module AttendanceSystem {
  import opened Options
  import opened Seqs
  import opened AttendanceRecords

  /** The class size the panel assumes for its absent figure. */
  const TotalStudents: int := 25

  /** How many of today's records the camera view shows. */
  const RecentCount: nat := 5

  datatype Panel = Panel(isScanning: bool, currentSession: Option<string>, records: seq<Record>)

  /** Starting a session: scanning, under the fresh session id. */
  function StartSession(p: Panel, sessionId: string): (q: Panel)
    ensures q.isScanning && q.currentSession == Some(sessionId)
    ensures q.records == p.records
  {
    p.(currentSession := Some(sessionId), isScanning := true)
  }

  /** Stopping a session: not scanning, and no session. */
  function StopSession(p: Panel): (q: Panel)
    ensures !q.isScanning && q.currentSession.None?
    ensures q.records == p.records
  {
    p.(isScanning := false, currentSession := None)
  }

  /** Stopping right after starting returns the toggle to where a stopped
      panel has it, whatever the session id was. */
  lemma StartThenStop(p: Panel, sessionId: string)
    ensures StopSession(StartSession(p, sessionId)) == StopSession(p)
  {
  }

  /** A detected face: a present record, by facial recognition, for the
      reported student goes in front of the list. The fresh id and today's
      day are inputs; the toggle is not consulted. */
  function HandleFaceDetected(p: Panel, studentId: string, name: string, confidence: real,
                              recordId: string, today: int): (q: Panel)
    ensures |q.records| == |p.records| + 1
    ensures q.records[0] == Record(recordId, studentId, name, today, confidence, Present, FacialRecognition)
    ensures q.records[1..] == p.records
    ensures q.isScanning == p.isScanning && q.currentSession == p.currentSession
  {
    var r := Record(recordId, studentId, name, today, confidence, Present, FacialRecognition);
    p.(records := [r] + p.records)
  }

  function StatusIs(s: Status): Record -> bool { (r: Record) => r.status == s }

  datatype Summary = Summary(recorded: nat, present: nat, late: nat, absent: int)

  /** Today's figures: records of today, those present, those late, and the
      class size less today's records, which is not clamped at zero. */
  function Summarise(records: seq<Record>, today: int): (s: Summary)
    ensures s.recorded == |RecordsOn(records, today)|
    ensures s.present == |Filter(StatusIs(Present), RecordsOn(records, today))|
    ensures s.late == |Filter(StatusIs(Late), RecordsOn(records, today))|
    ensures s.present + s.late <= s.recorded
    ensures s.present + s.late + Count(StatusIs(Absent), RecordsOn(records, today)) == s.recorded
    ensures s.absent + s.recorded == TotalStudents
    ensures s.absent < 0 <==> s.recorded > TotalStudents
  {
    var todays := RecordsOn(records, today);
    var present := Count(StatusIs(Present), todays);
    var late := Count(StatusIs(Late), todays);
    StatusesPartition(todays);
    CountIsFilterLength(StatusIs(Present), todays);
    CountIsFilterLength(StatusIs(Late), todays);
    Summary(|todays|, present, late, TotalStudents - |todays|)
  }

  /** Every record has exactly one of the three statuses. */
  lemma StatusesPartition(rs: seq<Record>)
    ensures Count(StatusIs(Present), rs) + Count(StatusIs(Late), rs) + Count(StatusIs(Absent), rs) == |rs|
  {
    var presentOrLate := (r: Record) => r.status != Absent;
    assert forall i :: 0 <= i < |rs| ==> presentOrLate(rs[i]) == (StatusIs(Present)(rs[i]) || StatusIs(Late)(rs[i]));
    CountSplit(StatusIs(Present), StatusIs(Late), presentOrLate, rs);
    var any := (r: Record) => true;
    assert forall i :: 0 <= i < |rs| ==> any(rs[i]) == (presentOrLate(rs[i]) || StatusIs(Absent)(rs[i]));
    CountSplit(presentOrLate, StatusIs(Absent), any, rs);
  }

  /** A face detected today raises the present and recorded figures by one,
      lowers the absent figure by one and leaves the late figure alone. */
  lemma DetectionCountsAsPresent(p: Panel, studentId: string, name: string, confidence: real,
                                 recordId: string, today: int)
    ensures Summarise(HandleFaceDetected(p, studentId, name, confidence, recordId, today).records, today).recorded
         == Summarise(p.records, today).recorded + 1
    ensures Summarise(HandleFaceDetected(p, studentId, name, confidence, recordId, today).records, today).present
         == Summarise(p.records, today).present + 1
    ensures Summarise(HandleFaceDetected(p, studentId, name, confidence, recordId, today).records, today).late
         == Summarise(p.records, today).late
    ensures Summarise(HandleFaceDetected(p, studentId, name, confidence, recordId, today).records, today).absent
         == Summarise(p.records, today).absent - 1
  {
    var r := Record(recordId, studentId, name, today, confidence, Present, FacialRecognition);
    var q := HandleFaceDetected(p, studentId, name, confidence, recordId, today);
    var todays := RecordsOn(p.records, today);
    assert RecordsOn(q.records, today) == [r] + todays by {
      assert q.records == [r] + p.records;
      RecordsOnCons(r, p.records, today);
    }
    assert ([r] + todays)[1..] == todays;
    assert Count(StatusIs(Present), [r] + todays) == 1 + Count(StatusIs(Present), todays);
    assert Count(StatusIs(Late), [r] + todays) == Count(StatusIs(Late), todays);
  }

  /** `n` successive detections today of one student. */
  function Detections(p: Panel, studentId: string, name: string, confidence: real,
                      recordId: string, today: int, n: nat): (q: Panel)
    ensures |q.records| == |p.records| + n
  {
    if n == 0 then p
    else HandleFaceDetected(Detections(p, studentId, name, confidence, recordId, today, n - 1),
                            studentId, name, confidence, recordId, today)
  }

  /** More records today than the class size drive the absent figure below
      zero: twenty-six detections today on an empty panel leave it at -1. */
  lemma AbsentGoesNegative(p: Panel, studentId: string, name: string, confidence: real, recordId: string, today: int)
    requires p.records == []
    ensures Summarise(Detections(p, studentId, name, confidence, recordId, today, 26).records, today).absent == -1
  {
    var q := Detections(p, studentId, name, confidence, recordId, today, 26);
    DetectionsAllToday(p, studentId, name, confidence, recordId, today, 26);
    FilterKeepsAll(OnDay(today), q.records);
  }

  /** Detections today on an empty panel leave only records of today. */
  lemma {:induction false} DetectionsAllToday(p: Panel, studentId: string, name: string, confidence: real,
                                              recordId: string, today: int, n: nat)
    requires p.records == []
    ensures forall i :: 0 <= i < |Detections(p, studentId, name, confidence, recordId, today, n).records| ==>
      OnDay(today)(Detections(p, studentId, name, confidence, recordId, today, n).records[i])
  {
    if n > 0 {
      DetectionsAllToday(p, studentId, name, confidence, recordId, today, n - 1);
      var prev := Detections(p, studentId, name, confidence, recordId, today, n - 1).records;
      var rs := Detections(p, studentId, name, confidence, recordId, today, n).records;
      assert rs[1..] == prev;
      assert forall i :: 1 <= i < |rs| ==> rs[i] == prev[i - 1];
    }
  }

  /** The records the camera view shows: the first five of today's. */
  function RecentRecords(records: seq<Record>, today: int): (rs: seq<Record>)
    ensures |rs| <= RecentCount
    ensures |rs| == if |RecordsOn(records, today)| < RecentCount then |RecordsOn(records, today)| else RecentCount
    ensures rs <= RecordsOn(records, today)
    ensures forall i :: 0 <= i < |rs| ==> rs[i].day == today && rs[i] in records
  {
    var todays := RecordsOn(records, today);
    todays[..if |todays| < RecentCount then |todays| else RecentCount]
  }
}

=== FILE: face_overlay.dfy ===
/** The projection of a frame's enhanced faces onto the display: the box
    colour of each face and the four summary counts of the panel. */
module FaceOverlay {
  import opened Options
  import opened Seqs
  import opened FaceRecognition

  datatype Colour = Green | Yellow | Red

  predicate IsRecognised(f: EnhancedFace) {
    f.studentMatch.Some?
  }

  predicate IsHighQuality(f: EnhancedFace) {
    f.quality.score > HighQualityScore
  }

  /** A face counts as live unless liveness detection said it is not; an
      absent verdict (detection disabled) counts as live. */
  predicate CountsAsLive(f: EnhancedFace) {
    f.isLive != Some(false)
  }

  /** The box colour of a face: green for a confident recognition, yellow
      for a recognition that is low-quality or flagged as a spoof, red for an
      unknown face. */
  function OverlayColour(f: EnhancedFace): (c: Colour)
    ensures c == Green <==> IsRecognised(f) && IsHighQuality(f) && CountsAsLive(f)
    ensures c == Yellow <==> IsRecognised(f) && !(IsHighQuality(f) && CountsAsLive(f))
    ensures c == Red <==> !IsRecognised(f)
  {
    if IsRecognised(f) && IsHighQuality(f) && CountsAsLive(f) then Green
    else if IsRecognised(f) then Yellow
    else Red
  }

  /** A recognised face flagged as a spoof is never drawn green. */
  lemma SpoofIsNeverGreen(f: EnhancedFace)
    requires f.isLive == Some(false)
    ensures OverlayColour(f) != Green
    ensures IsRecognised(f) ==> OverlayColour(f) == Yellow
  {
  }

  datatype FaceStats = FaceStats(totalFaces: nat, recognizedFaces: nat, highQualityFaces: nat, liveFaces: nat)

  /** The panel's summary counts over the faces of the last frame. */
  function Stats(faces: seq<EnhancedFace>): (st: FaceStats)
    ensures st.totalFaces == |faces|
    ensures st.recognizedFaces == |Filter(IsRecognised, faces)|
    ensures st.highQualityFaces == |Filter(IsHighQuality, faces)|
    ensures st.liveFaces == |Filter(CountsAsLive, faces)|
    ensures st.recognizedFaces <= st.totalFaces
    ensures st.highQualityFaces <= st.totalFaces
    ensures st.liveFaces <= st.totalFaces
    ensures st.recognizedFaces == 0 <==> forall i :: 0 <= i < |faces| ==> !IsRecognised(faces[i])
    ensures st.liveFaces == st.totalFaces <==> forall i :: 0 <= i < |faces| ==> CountsAsLive(faces[i])
  {
    CountIsFilterLength(IsRecognised, faces);
    CountIsFilterLength(IsHighQuality, faces);
    CountIsFilterLength(CountsAsLive, faces);
    FaceStats(|faces|, Count(IsRecognised, faces), Count(IsHighQuality, faces), Count(CountsAsLive, faces))
  }

  predicate IsGreen(f: EnhancedFace) { OverlayColour(f) == Green }
  predicate IsYellow(f: EnhancedFace) { OverlayColour(f) == Yellow }
  predicate IsRed(f: EnhancedFace) { OverlayColour(f) == Red }

  /** The colours partition the faces: the recognised ones are the green
      and the yellow ones, and the rest are red. */
  lemma ColoursPartitionFaces(faces: seq<EnhancedFace>)
    ensures Count(IsGreen, faces) + Count(IsYellow, faces) == Stats(faces).recognizedFaces
    ensures Stats(faces).recognizedFaces + Count(IsRed, faces) == Stats(faces).totalFaces
    ensures Count(IsGreen, faces) <= Stats(faces).highQualityFaces
    ensures Count(IsGreen, faces) <= Stats(faces).liveFaces
  {
    CountSplit(IsGreen, IsYellow, IsRecognised, faces);
    var all := (f: EnhancedFace) => true;
    CountSplit(IsRecognised, IsRed, all, faces);
    CountMonotone(IsGreen, IsHighQuality, faces);
    CountMonotone(IsGreen, CountsAsLive, faces);
  }

  /** With liveness detection disabled every face of a frame counts as live. */
  lemma FrameAllLiveWhenDisabled(marked: set<string>, faces: seq<Face>, settings: Settings, rec: Recogniser)
    requires !settings.livenessEnabled
    ensures var st := Stats(ProcessFrame(marked, faces, settings, rec).faces);
      st.liveFaces == st.totalFaces == |faces|
  {
    var efs := ProcessFrame(marked, faces, settings, rec).faces;
    assert forall i :: 0 <= i < |efs| ==> efs[i].isLive == None;
  }

  /** Only faces with a descriptor and a quality score above the floor can
      be among a frame's recognised faces. */
  lemma FrameRecognisedAreGated(marked: set<string>, faces: seq<Face>, settings: Settings, rec: Recogniser)
    ensures Stats(ProcessFrame(marked, faces, settings, rec).faces).recognizedFaces
         <= Count((f: Face) => f.descriptor.Some? && rec.assess(f).score > QualityFloor, faces)
  {
    var efs := ProcessFrame(marked, faces, settings, rec).faces;
    var gated := (f: Face) => f.descriptor.Some? && rec.assess(f).score > QualityFloor;
    assert forall i :: 0 <= i < |efs| ==> IsRecognised(efs[i]) ==> gated(faces[i]);
    CountMonotoneMapped(IsRecognised, gated, efs, faces);
  }

  /** Counting over two sequences of equal length related element-wise. */
  lemma {:induction false} CountMonotoneMapped<A, B>(p: A -> bool, q: B -> bool, a: seq<A>, b: seq<B>)
    requires |a| == |b|
    requires forall i :: 0 <= i < |a| ==> p(a[i]) ==> q(b[i])
    ensures Count(p, a) <= Count(q, b)
  {
    if a != [] {
      CountMonotoneMapped(p, q, a[1..], b[1..]);
    }
  }
}

=== FILE: face_recognition.dfy ===
/** The per-frame attendance decision of the enhanced facial-recognition
    panel: quality gating, matching, de-duplicated auto-marking, overlay
    colours, summary counts and the camera lifecycle around them.

    Quality scoring, descriptor matching and liveness detection belong to a
    library outside this model; they enter as the opaque `Recogniser`. */
module FaceRecognition {
  import opened Options
  import opened Seqs

  /** Matching is attempted only above this quality score. */
  const QualityFloor: real := 0.5
  /** A face above this quality score counts as high quality. */
  const HighQualityScore: real := 0.7

  datatype Box = Box(x: real, y: real, width: real, height: real)

  /** One detected face; `descriptor` is absent when the detector gave none. */
  datatype Face = Face(box: Box, descriptor: Option<seq<real>>)

  datatype QualityAssessment = QualityAssessment(score: real, issues: seq<string>)

  /** What the matcher returns; `studentId` is absent (or empty) on no match. */
  datatype MatchResult = MatchResult(studentId: Option<string>, name: string, rollNumber: string, confidence: real)

  datatype LivenessResult = LivenessResult(isLive: bool, confidence: real)

  /** The opaque recognition library: quality scoring per face, matching per
      descriptor, and the liveness verdict for the current video frame. */
  datatype Recogniser = Recogniser(
    assess: Face -> QualityAssessment,
    matchFace: seq<real> -> MatchResult,
    detectLiveness: LivenessResult)

  datatype Settings = Settings(confidenceThreshold: real, livenessEnabled: bool)

  datatype StudentMatch = StudentMatch(studentId: string, name: string, rollNumber: string, confidence: real)

  /** A face as the panel keeps it after one frame; `index` is the position
      that makes up the face's id within its frame. */
  datatype EnhancedFace = EnhancedFace(
    face: Face,
    index: nat,
    studentMatch: Option<StudentMatch>,
    quality: QualityAssessment,
    isLive: Option<bool>,
    livenessConfidence: Option<real>)

  /** One attendance mark handed to the student database. */
  datatype Mark = Mark(studentId: string, confidence: real)

  datatype FrameOutcome = FrameOutcome(marked: set<string>, faces: seq<EnhancedFace>, marks: seq<Mark>)

  /** The marked set after a run of auto-marking decisions, and the marks made. */
  datatype Marking = Marking(marked: set<string>, marks: seq<Mark>)

  /** The students a sequence of marks names. */
  function MarkIds(marks: seq<Mark>): set<string> {
    set m | m in marks :: m.studentId
  }

  /** No student is marked twice. */
  predicate DistinctIds(marks: seq<Mark>) {
    forall i, j :: 0 <= i < j < |marks| ==> marks[i].studentId != marks[j].studentId
  }

  /** A matched face whose confidence clears the auto-mark threshold. */
  predicate Qualifies(f: EnhancedFace, settings: Settings) {
    f.studentMatch.Some? && f.studentMatch.value.confidence > settings.confidenceThreshold
  }

  // ----- per-face decisions -------------------------------------------------

  /** The student match of one face: the matcher is consulted only when the
      face has a descriptor and its quality score is above the floor, and a
      match is kept only when the matcher names a (non-empty) student id. */
  function MatchOf(face: Face, q: QualityAssessment, rec: Recogniser): (r: Option<StudentMatch>)
    ensures r.Some? <==>
      face.descriptor.Some? && q.score > QualityFloor && Truthy(rec.matchFace(face.descriptor.value).studentId)
    ensures r.Some? ==>
      var m := rec.matchFace(face.descriptor.value);
      r.value == StudentMatch(m.studentId.value, m.name, m.rollNumber, m.confidence)
  {
    if face.descriptor.Some? && q.score > QualityFloor then
      var m := rec.matchFace(face.descriptor.value);
      if Truthy(m.studentId) then Some(StudentMatch(m.studentId.value, m.name, m.rollNumber, m.confidence))
      else None
    else None
  }

  /** The frame's liveness verdict: computed once, only when liveness
      detection is enabled and the frame has at least one face. */
  function FrameLiveness(faces: seq<Face>, settings: Settings, rec: Recogniser): (r: Option<LivenessResult>)
    ensures r.Some? <==> settings.livenessEnabled && |faces| > 0
    ensures r.Some? ==> r.value == rec.detectLiveness
  {
    if settings.livenessEnabled && |faces| > 0 then Some(rec.detectLiveness) else None
  }

  /** The enhanced face recorded for `face` at position `index`. */
  function Enhance(face: Face, index: nat, live: Option<LivenessResult>, rec: Recogniser): (e: EnhancedFace)
    ensures e.face == face && e.index == index
    ensures e.quality == rec.assess(face)
    ensures e.studentMatch == MatchOf(face, rec.assess(face), rec)
    ensures e.isLive.Some? <==> live.Some?
    ensures e.livenessConfidence.Some? <==> live.Some?
    ensures live.Some? ==> e.isLive.value == live.value.isLive && e.livenessConfidence.value == live.value.confidence
  {
    var q := rec.assess(face);
    EnhancedFace(
      face, index, MatchOf(face, q, rec), q,
      if live.Some? then Some(live.value.isLive) else None,
      if live.Some? then Some(live.value.confidence) else None)
  }

  // ----- the frame step -----------------------------------------------------

  /** The enhanced faces of a frame, in detection order. None of them depends
      on the session's marked set, so the frame's faces can be enhanced before
      its marks are decided without changing either. */
  function EnhanceAll(faces: seq<Face>, index: nat, live: Option<LivenessResult>, rec: Recogniser): (efs: seq<EnhancedFace>)
    ensures |efs| == |faces|
    ensures forall i :: 0 <= i < |faces| ==> efs[i] == Enhance(faces[i], index + i, live, rec)
    decreases |faces|
  {
    if faces == [] then []
    else [Enhance(faces[0], index, live, rec)] + EnhanceAll(faces[1..], index + 1, live, rec)
  }

  /** The auto-marking decisions of a frame, face by face in detection order:
      a qualifying face is marked when its student is not in the set as left
      by the faces before it, and then joins the set. */
  function AutoMark(marked: set<string>, efs: seq<EnhancedFace>, settings: Settings): (o: Marking)
    ensures o.marked == marked + MarkIds(o.marks)
    ensures DistinctIds(o.marks)
    ensures forall k :: 0 <= k < |o.marks| ==> o.marks[k].studentId !in marked
    decreases |efs|
  {
    if efs == [] then Marking(marked, [])
    else
      var e := efs[0];
      var mark := if Qualifies(e, settings) && e.studentMatch.value.studentId !in marked
                  then [MarkOfFace(e)] else [];
      var rest := AutoMark(marked + MarkIds(mark), efs[1..], settings);
      FreshMarksCompose(marked, mark, rest);
      Marking(rest.marked, mark + rest.marks)
  }

  /** Fresh, distinct marks followed by marks fresh with respect to them keep
      the marks distinct, fresh and accounted for in the set. */
  lemma FreshMarksCompose(marked: set<string>, first: seq<Mark>, rest: Marking)
    requires DistinctIds(first)
    requires forall k :: 0 <= k < |first| ==> first[k].studentId !in marked
    requires rest.marked == marked + MarkIds(first) + MarkIds(rest.marks)
    requires DistinctIds(rest.marks)
    requires forall k :: 0 <= k < |rest.marks| ==> rest.marks[k].studentId !in marked + MarkIds(first)
    ensures rest.marked == marked + MarkIds(first + rest.marks)
    ensures DistinctIds(first + rest.marks)
    ensures forall k :: 0 <= k < |first + rest.marks| ==> (first + rest.marks)[k].studentId !in marked
  {
    var all := first + rest.marks;
    MarkIdsConcat(first, rest.marks);
    assert forall k :: 0 <= k < |rest.marks| ==> all[|first| + k] == rest.marks[k];
    assert forall k :: 0 <= k < |first| ==> first[k] in first;
  }

  /** The mark a face's student match would produce. */
  function MarkOfFace(e: EnhancedFace): Mark
    requires e.studentMatch.Some?
  {
    Mark(e.studentMatch.value.studentId, e.studentMatch.value.confidence)
  }

  /** The marks of the faces qualifying for auto-marking, in detection order,
      before any de-duplication. */
  function Candidates(efs: seq<EnhancedFace>, settings: Settings): (c: seq<Mark>)
    ensures |c| <= |efs|
    ensures forall k :: 0 <= k < |c| ==> c[k].confidence > settings.confidenceThreshold
    decreases |efs|
  {
    if efs == [] then []
    else (if Qualifies(efs[0], settings) then [MarkOfFace(efs[0])] else []) + Candidates(efs[1..], settings)
  }

  /** The first mark in `c` naming `id`, if any. */
  function FirstWithId(c: seq<Mark>, id: string): (r: Option<Mark>)
    ensures r.Some? ==> r.value in c && r.value.studentId == id
    ensures r.None? <==> forall k :: 0 <= k < |c| ==> c[k].studentId != id
    decreases |c|
  {
    if c == [] then None
    else if c[0].studentId == id then Some(c[0])
    else FirstWithId(c[1..], id)
  }

  /** Looking for an id in a sequence with a new head `m` in front. */
  lemma FirstWithIdCons(m: Mark, c: seq<Mark>, id: string)
    ensures FirstWithId([m] + c, id) == if m.studentId == id then Some(m) else FirstWithId(c, id)
  {
    assert ([m] + c)[1..] == c;
  }

  lemma MarkIdsConcat(a: seq<Mark>, b: seq<Mark>)
    ensures MarkIds(a + b) == MarkIds(a) + MarkIds(b)
  {
  }

  /** The students a frame marks are exactly the qualifying ones that were not
      marked before the frame. */
  lemma {:induction false} AutoMarkExactIds(marked: set<string>, efs: seq<EnhancedFace>, settings: Settings)
    ensures MarkIds(AutoMark(marked, efs, settings).marks) == MarkIds(Candidates(efs, settings)) - marked
    decreases |efs|
  {
    if efs != [] {
      var e := efs[0];
      var cand := if Qualifies(e, settings) then [MarkOfFace(e)] else [];
      var mark := if Qualifies(e, settings) && e.studentMatch.value.studentId !in marked
                  then [MarkOfFace(e)] else [];
      var rest := AutoMark(marked + MarkIds(mark), efs[1..], settings);
      AutoMarkExactIds(marked + MarkIds(mark), efs[1..], settings);
      MarkIdsConcat(mark, rest.marks);
      MarkIdsConcat(cand, Candidates(efs[1..], settings));
    }
  }

  /** Every mark the pass makes is of a face whose match beats the
      confidence threshold. */
  lemma {:induction false} AutoMarkAboveThreshold(marked: set<string>, efs: seq<EnhancedFace>, settings: Settings)
    ensures forall k :: 0 <= k < |AutoMark(marked, efs, settings).marks| ==>
      AutoMark(marked, efs, settings).marks[k].confidence > settings.confidenceThreshold
    decreases |efs|
  {
    if efs != [] {
      var e := efs[0];
      var mark := if Qualifies(e, settings) && e.studentMatch.value.studentId !in marked
                  then [MarkOfFace(e)] else [];
      AutoMarkAboveThreshold(marked + MarkIds(mark), efs[1..], settings);
      assert AutoMark(marked, efs, settings).marks == mark + AutoMark(marked + MarkIds(mark), efs[1..], settings).marks;
    }
  }

  /** The marks a frame makes are, in order, a selection of its qualifying
      faces' marks. */
  lemma {:induction false} AutoMarkSound(marked: set<string>, efs: seq<EnhancedFace>, settings: Settings)
    ensures IsSubsequence(AutoMark(marked, efs, settings).marks, Candidates(efs, settings))
    decreases |efs|
  {
    if efs != [] {
      var e := efs[0];
      var mark := if Qualifies(e, settings) && e.studentMatch.value.studentId !in marked
                  then [MarkOfFace(e)] else [];
      var rest := AutoMark(marked + MarkIds(mark), efs[1..], settings).marks;
      var tail := Candidates(efs[1..], settings);
      AutoMarkSound(marked + MarkIds(mark), efs[1..], settings);
      assert AutoMark(marked, efs, settings).marks == mark + rest;
      if mark != [] {
        assert Candidates(efs, settings) == mark + tail;
        SubsequenceConsBoth(MarkOfFace(e), rest, tail);
      } else if Qualifies(e, settings) {
        assert mark + rest == rest;
        assert Candidates(efs, settings) == [MarkOfFace(e)] + tail;
        SubsequenceCons(MarkOfFace(e), rest, tail);
      } else {
        assert mark + rest == rest;
        assert Candidates(efs, settings) == tail;
      }
    }
  }

  /** Every mark in `marks` is the first mark in `c` naming its student. */
  predicate FirstOccurrences(marks: seq<Mark>, c: seq<Mark>) {
    forall k :: 0 <= k < |marks| ==> FirstWithId(c, marks[k].studentId) == Some(marks[k])
  }

  /** A new candidate `m` in front keeps the first occurrences of other
      students, and is itself the first occurrence of its own. */
  lemma FirstOccurrencesCons(m: Mark, tail: seq<Mark>, rest: seq<Mark>)
    requires FirstOccurrences(rest, tail)
    requires forall j :: 0 <= j < |rest| ==> rest[j].studentId != m.studentId
    ensures FirstOccurrences(rest, [m] + tail)
    ensures FirstOccurrences([m] + rest, [m] + tail)
  {
    forall j | 0 <= j < |rest|
      ensures FirstWithId([m] + tail, rest[j].studentId) == Some(rest[j])
    {
      FirstWithIdCons(m, tail, rest[j].studentId);
    }
    FirstWithIdCons(m, tail, m.studentId);
    assert forall k :: 1 <= k < |[m] + rest| ==> ([m] + rest)[k] == rest[k - 1];
  }

  /** When several qualifying faces name one student, the mark kept is the
      first of them: every mark is the first candidate naming its student. */
  lemma {:induction false} AutoMarkFirstOccurrence(marked: set<string>, efs: seq<EnhancedFace>, settings: Settings)
    ensures FirstOccurrences(AutoMark(marked, efs, settings).marks, Candidates(efs, settings))
    decreases |efs|
  {
    if efs != [] {
      var e := efs[0];
      var mark := if Qualifies(e, settings) && e.studentMatch.value.studentId !in marked
                  then [MarkOfFace(e)] else [];
      var rest := AutoMark(marked + MarkIds(mark), efs[1..], settings).marks;
      var tail := Candidates(efs[1..], settings);
      AutoMarkFirstOccurrence(marked + MarkIds(mark), efs[1..], settings);
      assert AutoMark(marked, efs, settings).marks == mark + rest;
      if Qualifies(e, settings) {
        var m := MarkOfFace(e);
        assert Candidates(efs, settings) == [m] + tail;
        assert m.studentId in marked + MarkIds(mark) by {
          if mark != [] { assert mark[0] == m; }
        }
        FirstOccurrencesCons(m, tail, rest);
        if mark != [] {
          assert mark + rest == [m] + rest;
        } else {
          assert mark + rest == rest;
        }
      } else {
        assert Candidates(efs, settings) == tail;
        assert mark + rest == rest;
      }
    }
  }

  /** Auto-marking reads nothing of a face but its student match. */
  lemma {:induction false} AutoMarkReadsOnlyMatches(marked: set<string>, efs1: seq<EnhancedFace>,
      efs2: seq<EnhancedFace>, settings: Settings)
    requires |efs1| == |efs2|
    requires forall i :: 0 <= i < |efs1| ==> efs1[i].studentMatch == efs2[i].studentMatch
    ensures AutoMark(marked, efs1, settings) == AutoMark(marked, efs2, settings)
    decreases |efs1|
  {
    if efs1 != [] {
      var e := efs1[0];
      var mark := if Qualifies(e, settings) && e.studentMatch.value.studentId !in marked
                  then [MarkOfFace(e)] else [];
      AutoMarkReadsOnlyMatches(marked + MarkIds(mark), efs1[1..], efs2[1..], settings);
    }
  }

  /** One frame of `processFrame`, stripped of camera and canvas work: the
      marked set after the frame, the enhanced faces and the marks made. */
  function ProcessFrame(marked: set<string>, faces: seq<Face>, settings: Settings, rec: Recogniser): (o: FrameOutcome)
    ensures |o.faces| == |faces|
    ensures forall i :: 0 <= i < |faces| ==> o.faces[i].face == faces[i] && o.faces[i].index == i
    ensures forall i :: 0 <= i < |faces| ==>
      o.faces[i].quality == rec.assess(faces[i]) &&
      o.faces[i].studentMatch == MatchOf(faces[i], rec.assess(faces[i]), rec)
    ensures forall i :: 0 <= i < |faces| && o.faces[i].studentMatch.Some? ==>
      faces[i].descriptor.Some? && rec.assess(faces[i]).score > QualityFloor
    ensures forall i :: 0 <= i < |faces| ==>
      o.faces[i] == Enhance(faces[i], i, FrameLiveness(faces, settings, rec), rec)
    ensures forall i :: 0 <= i < |faces| ==>
      o.faces[i].isLive == (if settings.livenessEnabled then Some(rec.detectLiveness.isLive) else None) &&
      o.faces[i].livenessConfidence == (if settings.livenessEnabled then Some(rec.detectLiveness.confidence) else None)
    ensures marked <= o.marked
    ensures o.marked == marked + MarkIds(o.marks)
    ensures DistinctIds(o.marks)
    ensures forall k :: 0 <= k < |o.marks| ==> o.marks[k].studentId !in marked
    ensures MarkIds(o.marks) == MarkIds(Candidates(o.faces, settings)) - marked
    ensures IsSubsequence(o.marks, Candidates(o.faces, settings))
    ensures forall k :: 0 <= k < |o.marks| ==>
      FirstWithId(Candidates(o.faces, settings), o.marks[k].studentId) == Some(o.marks[k])
    ensures forall k :: 0 <= k < |o.marks| ==> o.marks[k].confidence > settings.confidenceThreshold
  {
    var efs := FrameFaces(faces, settings, rec);
    var m := AutoMark(marked, efs, settings);
    AutoMarkExactIds(marked, efs, settings);
    AutoMarkSound(marked, efs, settings);
    AutoMarkFirstOccurrence(marked, efs, settings);
    AutoMarkAboveThreshold(marked, efs, settings);
    FrameOutcome(m.marked, efs, m.marks)
  }

  /** The enhanced faces of a frame: every detected face, numbered in
      detection order, with the frame's one liveness verdict. */
  function FrameFaces(faces: seq<Face>, settings: Settings, rec: Recogniser): (efs: seq<EnhancedFace>)
    ensures |efs| == |faces|
    ensures forall i :: 0 <= i < |faces| ==> efs[i] == Enhance(faces[i], i, FrameLiveness(faces, settings, rec), rec)
  {
    EnhanceAll(faces, 0, FrameLiveness(faces, settings, rec), rec)
  }

  /** A frame's enhanced faces do not depend on who was marked before it. */
  lemma ProcessFrameFaces(marked: set<string>, faces: seq<Face>, settings: Settings, rec: Recogniser)
    ensures ProcessFrame(marked, faces, settings, rec).faces == FrameFaces(faces, settings, rec)
  {
    var a := ProcessFrame(marked, faces, settings, rec).faces;
    var b := FrameFaces(faces, settings, rec);
    assert forall i :: 0 <= i < |a| ==> a[i] == b[i];
  }

  /** Which students a frame marks does not depend on liveness detection being
      enabled, nor on the verdict it returns. */
  lemma MarkingIgnoresLiveness(marked: set<string>, faces: seq<Face>, settings: Settings, rec: Recogniser,
                               enabled: bool, verdict: LivenessResult)
    ensures
      var a := ProcessFrame(marked, faces, settings, rec);
      var b := ProcessFrame(marked, faces, settings.(livenessEnabled := enabled), rec.(detectLiveness := verdict));
      a.marks == b.marks && a.marked == b.marked
  {
    var s2 := settings.(livenessEnabled := enabled);
    var rec2 := rec.(detectLiveness := verdict);
    var efs1 := FrameFaces(faces, settings, rec);
    var efs2 := FrameFaces(faces, s2, rec2);
    AutoMarkReadsOnlyMatches(marked, efs1, efs2, settings);
    assert AutoMark(marked, efs2, settings) == AutoMark(marked, efs2, s2) by {
      AutoMarkSameThreshold(marked, efs2, settings, s2);
    }
  }

  /** Auto-marking reads nothing of the settings but the threshold. */
  lemma {:induction false} AutoMarkSameThreshold(marked: set<string>, efs: seq<EnhancedFace>, s1: Settings, s2: Settings)
    requires s1.confidenceThreshold == s2.confidenceThreshold
    ensures AutoMark(marked, efs, s1) == AutoMark(marked, efs, s2)
    decreases |efs|
  {
    if efs != [] {
      var e := efs[0];
      var mark := if Qualifies(e, s1) && e.studentMatch.value.studentId !in marked
                  then [MarkOfFace(e)] else [];
      AutoMarkSameThreshold(marked + MarkIds(mark), efs[1..], s1, s2);
    }
  }
  // ----- the frame as the source writes it ----------------------------------

  /** Holds of a mark whose student is not in `marked`. */
  function NotMarkedIn(marked: set<string>): Mark -> bool {
    (m: Mark) => m.studentId !in marked
  }

  /** The marks of auto-marking as `processFrame` writes it: every face is
      checked against the marked set captured when the frame started, so a
      mark made earlier in the same frame is not seen by the faces after it. */
  function AsWrittenMarks(marked: set<string>, efs: seq<EnhancedFace>, settings: Settings): (marks: seq<Mark>)
    ensures marks == Filter(NotMarkedIn(marked), Candidates(efs, settings))
    decreases |efs|
  {
    if efs == [] then []
    else
      var e := efs[0];
      var mark := if Qualifies(e, settings) && e.studentMatch.value.studentId !in marked
                  then [MarkOfFace(e)] else [];
      var rest := AsWrittenMarks(marked, efs[1..], settings);
      AsWrittenStep(marked, e, settings, rest, Candidates(efs[1..], settings));
      mark + rest
  }

  /** Auto-marking as `processFrame` writes it: the marks above, each of
      whose students is then added to the set. */
  function AutoMarkAsWritten(marked: set<string>, efs: seq<EnhancedFace>, settings: Settings): (o: Marking)
    ensures o.marks == Filter(NotMarkedIn(marked), Candidates(efs, settings))
    ensures MarkIds(o.marks) == MarkIds(Candidates(efs, settings)) - marked
    ensures o.marked == marked + MarkIds(o.marks)
  {
    var marks := AsWrittenMarks(marked, efs, settings);
    FilterIds(marked, Candidates(efs, settings));
    Marking(marked + MarkIds(marks), marks)
  }

  /** Filtering marks by freshness removes exactly the already-marked students. */
  lemma {:induction false} FilterIds(marked: set<string>, ms: seq<Mark>)
    ensures MarkIds(Filter(NotMarkedIn(marked), ms)) == MarkIds(ms) - marked
  {
    if ms != [] {
      FilterIds(marked, ms[1..]);
      assert ms == [ms[0]] + ms[1..];
      FilterCons(NotMarkedIn(marked), ms[0], ms[1..]);
      MarkIdsConcat([ms[0]], ms[1..]);
      MarkIdsConcat([ms[0]], Filter(NotMarkedIn(marked), ms[1..]));
    }
  }

  lemma AsWrittenStep(marked: set<string>, e: EnhancedFace, settings: Settings, restMarks: seq<Mark>, tail: seq<Mark>)
    requires restMarks == Filter(NotMarkedIn(marked), tail)
    ensures (if Qualifies(e, settings) && e.studentMatch.value.studentId !in marked then [MarkOfFace(e)] else []) + restMarks
         == Filter(NotMarkedIn(marked), (if Qualifies(e, settings) then [MarkOfFace(e)] else []) + tail)
  {
    if Qualifies(e, settings) {
      var m := MarkOfFace(e);
      FilterCons(NotMarkedIn(marked), m, tail);
      assert NotMarkedIn(marked)(m) == (e.studentMatch.value.studentId !in marked);
    } else {
      assert [] + tail == tail;
      assert [] + restMarks == restMarks;
    }
  }

  /** `processFrame` as the source writes it: the same faces as the
      sequential frame, but marks decided against the frame-start set. */
  function ProcessFrameAsWritten(marked: set<string>, faces: seq<Face>, settings: Settings, rec: Recogniser): (o: FrameOutcome)
    ensures o.faces == ProcessFrame(marked, faces, settings, rec).faces
    ensures o.marks == Filter(NotMarkedIn(marked), Candidates(o.faces, settings))
    ensures o.marked == marked + MarkIds(o.marks)
  {
    var efs := FrameFaces(faces, settings, rec);
    var m := AutoMarkAsWritten(marked, efs, settings);
    FrameOutcome(m.marked, efs, m.marks)
  }

  /** Two faces matched to one student in one frame: the source marks the
      student twice, the sequential decision once. */
  lemma SameStudentTwiceInOneFrame(marked: set<string>, e1: EnhancedFace, e2: EnhancedFace, settings: Settings)
    requires Qualifies(e1, settings) && e1.studentMatch.value.studentId !in marked
    requires e2.studentMatch == e1.studentMatch
    ensures AutoMarkAsWritten(marked, [e1, e2], settings).marks == [MarkOfFace(e1), MarkOfFace(e2)]
    ensures !DistinctIds(AutoMarkAsWritten(marked, [e1, e2], settings).marks)
    ensures AutoMark(marked, [e1, e2], settings).marks == [MarkOfFace(e1)]
  {
    assert [e1, e2][1..] == [e2];
    assert [e2][1..] == [];
    var m := MarkOfFace(e1);
    assert MarkOfFace(e2) == m;
    assert Candidates([e2], settings) == [m];
    assert Candidates([e1, e2], settings) == [m, m];
    assert AutoMarkAsWritten(marked, [e2], settings).marks == [m];
    assert AutoMark(marked + {m.studentId}, [e2], settings).marks == [];
    assert MarkIds([m]) == {m.studentId};
  }
}

=== FILE: face_session.dfy ===
/** The camera lifecycle of the enhanced facial-recognition panel and the
    frame loop that runs while the camera is active. A recognition session
    lasts from starting the camera to stopping it; stopping forgets the
    session's marked students. */
module FaceSession {
  import opened Options
  import opened FaceRecognition

  /** Why the camera could not start; a failure's message is what the panel
      shows after "Camera error: ". */
  datatype CameraError = CameraUnavailable | CameraFailure(message: string)

  /** The outcome of asking the browser for the camera stream. */
  datatype Access = Granted | Denied(message: string)

  datatype Camera = Camera(
    isActive: bool,
    streamOpen: bool,
    isLoading: bool,
    error: Option<CameraError>,
    detectedFaces: seq<EnhancedFace>,
    attendanceMarked: set<string>)

  /** The panel as first rendered. */
  const Initial: Camera := Camera(false, false, false, None, [], {})

  /** The message shown when the stream is refused; an empty reason falls
      back to a generic one. */
  function FailureMessage(reason: string): (m: string)
    ensures m != ""
    ensures reason != "" ==> m == reason
  {
    if reason != "" then reason else "Failed to access camera"
  }

  /** Starting the camera: without media devices only the error changes; a
      granted stream activates the session; a refused one reports why. The
      marked set and the faces of an earlier session are left as they are. */
  function StartCamera(c: Camera, hasMediaDevices: bool, access: Access): (d: Camera)
    ensures d.detectedFaces == c.detectedFaces && d.attendanceMarked == c.attendanceMarked
    ensures !hasMediaDevices ==> d == c.(error := Some(CameraUnavailable))
    ensures hasMediaDevices && access.Granted? ==>
      d.isActive && d.streamOpen && d.isLoading && d.error.None?
    ensures hasMediaDevices && access.Denied? ==>
      d.isActive == c.isActive && d.streamOpen == c.streamOpen && !d.isLoading &&
      d.error == Some(CameraFailure(FailureMessage(access.message)))
  {
    if !hasMediaDevices then c.(error := Some(CameraUnavailable))
    else
      match access
      case Granted => c.(error := None, isLoading := true, streamOpen := true, isActive := true)
      case Denied(reason) => c.(isLoading := false, error := Some(CameraFailure(FailureMessage(reason))))
  }

  /** Stopping the camera ends the session: the stream is closed and the
      faces and marked students are forgotten; a previous error stays shown. */
  function StopCamera(c: Camera): (d: Camera)
    ensures !d.isActive && !d.streamOpen && !d.isLoading
    ensures d.detectedFaces == [] && d.attendanceMarked == {}
    ensures d.error == c.error
  {
    Camera(false, false, false, c.error, [], {})
  }

  datatype TickOutcome = TickOutcome(camera: Camera, marks: seq<Mark>)

  /** One tick of the frame loop. `frame` is the detector's faces, or None
      when the video is not ready or detection failed; an inactive camera or
      a missing frame leaves everything unchanged. Otherwise the frame's
      enhanced faces replace the detected faces, and the frame's marks are
      the tick's marks. */
  function Tick(c: Camera, frame: Option<seq<Face>>, settings: Settings, rec: Recogniser): (t: TickOutcome)
    ensures t.camera.isActive == c.isActive && t.camera.streamOpen == c.streamOpen
    ensures t.camera.isLoading == c.isLoading && t.camera.error == c.error
    ensures !c.isActive || frame.None? ==> t.camera == c && t.marks == []
    ensures c.isActive && frame.Some? ==> |t.camera.detectedFaces| == |frame.value|
    ensures c.isActive && frame.Some? ==>
      var o := ProcessFrame(c.attendanceMarked, frame.value, settings, rec);
      t.camera.detectedFaces == o.faces && t.marks == o.marks
    ensures c.isActive && frame.Some? ==>
      MarkIds(t.marks) == MarkIds(Candidates(t.camera.detectedFaces, settings)) - c.attendanceMarked
    ensures forall k :: 0 <= k < |t.marks| ==> t.marks[k].confidence > settings.confidenceThreshold
    ensures t.camera.attendanceMarked == c.attendanceMarked + MarkIds(t.marks)
    ensures DistinctIds(t.marks)
    ensures forall k :: 0 <= k < |t.marks| ==> t.marks[k].studentId !in c.attendanceMarked
  {
    if !c.isActive || frame.None? then TickOutcome(c, [])
    else
      var o := ProcessFrame(c.attendanceMarked, frame.value, settings, rec);
      TickOutcome(c.(detectedFaces := o.faces, attendanceMarked := o.marked), o.marks)
  }

  /** The students a run of frames shows qualifying for a mark: the
      students of the qualifying faces of every frame that was detected. */
  function SeenIds(frames: seq<Option<seq<Face>>>, settings: Settings, rec: Recogniser): set<string>
    decreases |frames|
  {
    if frames == [] then {}
    else
      (if frames[0].Some? then MarkIds(Candidates(FrameFaces(frames[0].value, settings, rec), settings)) else {})
      + SeenIds(frames[1..], settings, rec)
  }

  /** The marks a run of frames offers: the qualifying faces' marks of every
      frame that was detected, frame after frame. */
  function SeenMarks(frames: seq<Option<seq<Face>>>, settings: Settings, rec: Recogniser): seq<Mark>
    decreases |frames|
  {
    if frames == [] then []
    else
      (if frames[0].Some? then Candidates(FrameFaces(frames[0].value, settings, rec), settings) else [])
      + SeenMarks(frames[1..], settings, rec)
  }

  /** A run of frame ticks with fixed settings and recogniser. Across the
      whole run no student is marked twice, nor is any student marked who was
      already in the session's set, and the set ends up holding exactly the
      students it started with and those marked. */
  function RunSession(c: Camera, frames: seq<Option<seq<Face>>>, settings: Settings, rec: Recogniser): (t: TickOutcome)
    ensures t.camera.isActive == c.isActive && t.camera.error == c.error
    ensures !c.isActive ==> t.camera == c && t.marks == []
    ensures t.camera.attendanceMarked == c.attendanceMarked + MarkIds(t.marks)
    ensures DistinctIds(t.marks)
    ensures forall k :: 0 <= k < |t.marks| ==> t.marks[k].studentId !in c.attendanceMarked
    ensures c.isActive ==> MarkIds(t.marks) == SeenIds(frames, settings, rec) - c.attendanceMarked
    ensures forall k :: 0 <= k < |t.marks| ==> t.marks[k] in SeenMarks(frames, settings, rec)
    ensures forall k :: 0 <= k < |t.marks| ==> t.marks[k].confidence > settings.confidenceThreshold
    decreases |frames|
  {
    if frames == [] then TickOutcome(c, [])
    else
      var first := Tick(c, frames[0], settings, rec);
      var rest := RunSession(first.camera, frames[1..], settings, rec);
      FreshMarksCompose(c.attendanceMarked, first.marks, Marking(rest.camera.attendanceMarked, rest.marks));
      SeenStep(c, frames, settings, rec, first, rest.marks);
      SeenMarksStep(c, frames, settings, rec, first, rest.marks);
      TickOutcome(rest.camera, first.marks + rest.marks)
  }

  /** The students one tick marks, followed by those the rest of the run
      marks, are the students the whole run shows less those marked before. */
  lemma SeenStep(c: Camera, frames: seq<Option<seq<Face>>>, settings: Settings, rec: Recogniser,
                 first: TickOutcome, restMarks: seq<Mark>)
    requires frames != [] && first == Tick(c, frames[0], settings, rec)
    requires c.isActive ==>
      MarkIds(restMarks) == SeenIds(frames[1..], settings, rec) - first.camera.attendanceMarked
    ensures c.isActive ==>
      MarkIds(first.marks + restMarks) == SeenIds(frames, settings, rec) - c.attendanceMarked
  {
    if c.isActive {
      if frames[0].Some? {
        ProcessFrameFaces(c.attendanceMarked, frames[0].value, settings, rec);
      }
      MarkIdsConcat(first.marks, restMarks);
    }
  }

  /** The marks of one tick and of the rest of the run are all marks the
      whole run offers. */
  lemma SeenMarksStep(c: Camera, frames: seq<Option<seq<Face>>>, settings: Settings, rec: Recogniser,
                      first: TickOutcome, restMarks: seq<Mark>)
    requires frames != [] && first == Tick(c, frames[0], settings, rec)
    requires forall k :: 0 <= k < |restMarks| ==> restMarks[k] in SeenMarks(frames[1..], settings, rec)
    ensures forall k :: 0 <= k < |first.marks + restMarks| ==>
      (first.marks + restMarks)[k] in SeenMarks(frames, settings, rec)
  {
    var head := if frames[0].Some? then Candidates(FrameFaces(frames[0].value, settings, rec), settings) else [];
    assert SeenMarks(frames, settings, rec) == head + SeenMarks(frames[1..], settings, rec);
    if c.isActive && frames[0].Some? {
      ProcessFrameFaces(c.attendanceMarked, frames[0].value, settings, rec);
      assert forall k :: 0 <= k < |first.marks| ==> first.marks[k] in head;
    }
  }

  /** A session started after a stop marks each student at most once, and
      its marked set is exactly the students it marked. */
  lemma FreshSessionMarksEachStudentOnce(c: Camera, frames: seq<Option<seq<Face>>>, settings: Settings,
                                         rec: Recogniser)
    ensures
      var t := RunSession(StartCamera(StopCamera(c), true, Granted), frames, settings, rec);
      DistinctIds(t.marks) && t.camera.attendanceMarked == MarkIds(t.marks)
  {
  }

  /** The panel's first session marks each student it sees qualifying
      exactly once, and ends with exactly those students marked. */
  lemma FirstSessionMarksSeen(frames: seq<Option<seq<Face>>>, settings: Settings, rec: Recogniser)
    ensures
      var t := RunSession(StartCamera(Initial, true, Granted), frames, settings, rec);
      && DistinctIds(t.marks)
      && MarkIds(t.marks) == SeenIds(frames, settings, rec)
      && t.camera.attendanceMarked == SeenIds(frames, settings, rec)
  {
  }
}

=== FILE: options.dfy ===
/** The absent-or-present wrapper used for optional fields, optional query
    parameters and the `null`/`undefined` values of the modelled code. */
module Options {

  datatype Option<+T> = None | Some(value: T)

  /** A string parameter as JavaScript's truthiness sees it: present and non-empty. */
  predicate Truthy(s: Option<string>) {
    s.Some? && s.value != ""
  }
}

=== FILE: recommendations.dfy ===
/** The in-memory store behind the AI recommendations endpoint: `GET` lists
    recommendations under optional equality filters on status, type and
    priority, and `PATCH` sets the status of one recommendation by id. */
module Recommendations {
  import opened Options
  import opened Seqs

  /** One recommendation. `status` holds whatever a `PATCH` last wrote, so it
      is a free string; the declared type allows "new", "in-progress",
      "completed" and "dismissed", and both seeded records are "new". */
  datatype Recommendation = Recommendation(
    id: string,
    recType: string,
    priority: string,
    title: string,
    description: string,
    impact: string,
    confidence: int,
    estimatedTime: string,
    status: string,
    aiReasoning: string)

  /** The query string of a `GET`; each parameter may be absent. */
  datatype Query = Query(status: Option<string>, recType: Option<string>, priority: Option<string>)

  datatype ListResponse = ListResponse(recommendations: seq<Recommendation>, total: nat)

  /** A parameter constrains the listing when it is present, non-empty and
      not "all". */
  predicate Constrains(param: Option<string>) {
    Truthy(param) && param.value != "all"
  }

  /** A field value passes a parameter that does not constrain, or equals it. */
  predicate Passes(param: Option<string>, value: string) {
    Constrains(param) ==> value == param.value
  }

  /** A recommendation passes every filter of the query. */
  predicate Matches(r: Recommendation, q: Query) {
    Passes(q.status, r.status) && Passes(q.recType, r.recType) && Passes(q.priority, r.priority)
  }

  /** The three fields a listing can be filtered on. */
  datatype Field = StatusField | TypeField | PriorityField

  function FieldOf(f: Field, r: Recommendation): string {
    match f
    case StatusField => r.status
    case TypeField => r.recType
    case PriorityField => r.priority
  }

  /** Holds of a recommendation whose `field` equals `v`. */
  function FieldIs(field: Field, v: string): Recommendation -> bool {
    (r: Recommendation) => FieldOf(field, r) == v
  }

  /** Holds of a recommendation whose `field` passes `param`. */
  function FieldPasses(field: Field, param: Option<string>): Recommendation -> bool {
    (r: Recommendation) => Passes(param, FieldOf(field, r))
  }

  function MatchesQuery(q: Query): Recommendation -> bool { (r: Recommendation) => Matches(r, q) }

  /** One optional filter step: applied only when its parameter constrains,
      and then keeping the recommendations whose field equals it. */
  function FilterStep(param: Option<string>, field: Field, s: seq<Recommendation>): (r: seq<Recommendation>)
    ensures r == Filter(FieldPasses(field, param), s)
  {
    if Constrains(param) then
      assert forall i :: 0 <= i < |s| ==> FieldIs(field, param.value)(s[i]) == FieldPasses(field, param)(s[i]);
      FilterExt(FieldIs(field, param.value), FieldPasses(field, param), s);
      Filter(FieldIs(field, param.value), s)
    else
      assert forall i :: 0 <= i < |s| ==> FieldPasses(field, param)(s[i]);
      FilterKeepsAll(FieldPasses(field, param), s);
      s
  }

  /** The three optional filters of a listing, in the order applied. */
  function Narrow(store: seq<Recommendation>, q: Query): seq<Recommendation> {
    FilterStep(q.priority, PriorityField, FilterStep(q.recType, TypeField, FilterStep(q.status, StatusField, store)))
  }

  /** Three filters in turn are one filter by all three conditions. */
  lemma NarrowInOnePass(store: seq<Recommendation>, q: Query)
    ensures Narrow(store, q) == Filter(MatchesQuery(q), store)
  {
    var sp := FieldPasses(StatusField, q.status);
    var tp := FieldPasses(TypeField, q.recType);
    var pp := FieldPasses(PriorityField, q.priority);
    var both := (r: Recommendation) => sp(r) && tp(r);
    assert forall i :: 0 <= i < |store| ==> both(store[i]) == (sp(store[i]) && tp(store[i]));
    FilterFilter(sp, tp, both, store);
    forall i | 0 <= i < |store|
      ensures MatchesQuery(q)(store[i]) == (both(store[i]) && pp(store[i]))
    {
      var r := store[i];
      assert sp(r) == Passes(q.status, r.status);
      assert tp(r) == Passes(q.recType, r.recType);
      assert pp(r) == Passes(q.priority, r.priority);
    }
    FilterFilter(both, pp, MatchesQuery(q), store);
  }

  /** `GET`: the store narrowed by each constraining parameter in turn. The
      store itself is not changed: the listing is computed from a copy. */
  function List(store: seq<Recommendation>, q: Query): (resp: ListResponse)
    ensures resp.total == |resp.recommendations|
    ensures resp.recommendations == Filter(MatchesQuery(q), store)
  {
    var c := Narrow(store, q);
    NarrowInOnePass(store, q);
    ListResponse(c, |c|)
  }

  /** What a listing holds: exactly the stored recommendations that match
      every constraining filter, as an order-preserving subsequence. */
  lemma ListContents(store: seq<Recommendation>, q: Query)
    ensures var rs := List(store, q).recommendations;
      && IsSubsequence(rs, store)
      && (forall i :: 0 <= i < |rs| ==> rs[i] in store && Matches(rs[i], q))
      && (forall i :: 0 <= i < |store| && Matches(store[i], q) ==> store[i] in rs)
  {
    var rs := List(store, q).recommendations;
    assert rs == Filter(MatchesQuery(q), store);
    assert forall i :: 0 <= i < |rs| ==> MatchesQuery(q)(rs[i]) == Matches(rs[i], q);
    assert forall i :: 0 <= i < |store| ==> MatchesQuery(q)(store[i]) == Matches(store[i], q);
  }

  /** A parameter that is absent, empty or "all" imposes no constraint: the
      listing is the query's listing without it. */
  lemma UnconstrainedParametersAreIgnored(store: seq<Recommendation>, q: Query)
    ensures !Constrains(q.status) ==> List(store, q) == List(store, q.(status := None))
    ensures !Constrains(q.recType) ==> List(store, q) == List(store, q.(recType := None))
    ensures !Constrains(q.priority) ==> List(store, q) == List(store, q.(priority := None))
    ensures !Constrains(q.status) && !Constrains(q.recType) && !Constrains(q.priority) ==>
      List(store, q) == ListResponse(store, |store|)
  {
    if !Constrains(q.status) {
      FilterExt(MatchesQuery(q), MatchesQuery(q.(status := None)), store);
    }
    if !Constrains(q.recType) {
      FilterExt(MatchesQuery(q), MatchesQuery(q.(recType := None)), store);
    }
    if !Constrains(q.priority) {
      FilterExt(MatchesQuery(q), MatchesQuery(q.(priority := None)), store);
    }
    if !Constrains(q.status) && !Constrains(q.recType) && !Constrains(q.priority) {
      FilterKeepsAll(MatchesQuery(q), store);
    }
  }

  // ----- PATCH ---------------------------------------------------------------

  /** The body of a `PATCH`: unreadable when it is not JSON or is JSON
      `null`, whose destructuring throws; otherwise either field may be
      missing. */
  datatype PatchBody = Unreadable | PatchBody(id: Option<string>, status: Option<string>)

  datatype PatchResponse = ServerError | BadRequest | NotFound | Updated(recommendation: Recommendation)

  datatype PatchOutcome = PatchOutcome(store: seq<Recommendation>, response: PatchResponse)

  /** The HTTP status code of a `PATCH` response. */
  function StatusCode(r: PatchResponse): int {
    match r
    case ServerError => 500
    case BadRequest => 400
    case NotFound => 404
    case Updated(_) => 200
  }

  /** The position of the first recommendation with the given id, if any. */
  function FindIndex(store: seq<Recommendation>, id: string): (r: Option<nat>)
    ensures r.Some? ==> r.value < |store| && store[r.value].id == id
    ensures r.Some? ==> forall j :: 0 <= j < r.value ==> store[j].id != id
    ensures r.None? <==> forall j :: 0 <= j < |store| ==> store[j].id != id
    decreases |store|
  {
    if store == [] then None
    else if store[0].id == id then Some(0)
    else
      match FindIndex(store[1..], id)
      case None => None
      case Some(k) => Some(k + 1)
  }

  /** `PATCH`: an unreadable body is a server error; a missing or empty id
      or status is a bad request; an unknown id is not found; otherwise the
      first recommendation with the id gets the given status, unvalidated. */
  function Patch(store: seq<Recommendation>, body: PatchBody): (o: PatchOutcome)
    ensures StatusCode(o.response) == 500 <==> body.Unreadable?
    ensures StatusCode(o.response) == 400 <==> body.PatchBody? && (!Truthy(body.id) || !Truthy(body.status))
    ensures StatusCode(o.response) == 404 <==>
      body.PatchBody? && Truthy(body.id) && Truthy(body.status) &&
      forall j :: 0 <= j < |store| ==> store[j].id != body.id.value
    ensures StatusCode(o.response) != 200 ==> o.store == store
    ensures StatusCode(o.response) == 200 ==> o.response.Updated? && exists i :: 0 <= i < |store| && UpdatedAt(store, o, i, body)
  {
    if body.Unreadable? then PatchOutcome(store, ServerError)
    else if !Truthy(body.id) || !Truthy(body.status) then PatchOutcome(store, BadRequest)
    else
      match FindIndex(store, body.id.value)
      case None => PatchOutcome(store, NotFound)
      case Some(i) =>
        var updated := store[i].(status := body.status.value);
        var o := PatchOutcome(store[i := updated], Updated(updated));
        assert UpdatedAt(store, o, i, body);
        o
  }

  /** `o` is `store` with only the status of the first recommendation with
      the body's id, at position `i`, replaced by the body's status, and the
      response carries that recommendation. */
  ghost predicate UpdatedAt(store: seq<Recommendation>, o: PatchOutcome, i: int, body: PatchBody)
    requires 0 <= i < |store|
  {
    && body.PatchBody? && body.id.Some? && body.status.Some?
    && store[i].id == body.id.value
    && (forall j :: 0 <= j < i ==> store[j].id != body.id.value)
    && |o.store| == |store|
    && o.store[i] == store[i].(status := body.status.value)
    && (forall j :: 0 <= j < |store| && j != i ==> o.store[j] == store[j])
    && o.response == Updated(o.store[i])
  }

  /** Patching twice with the same body is patching once. */
  lemma PatchIdempotent(store: seq<Recommendation>, body: PatchBody)
    ensures Patch(Patch(store, body).store, body) == Patch(store, body)
  {
    var o := Patch(store, body);
    if o.response.Updated? {
      var i :| 0 <= i < |store| && UpdatedAt(store, o, i, body);
      assert FindIndex(o.store, body.id.value) == Some(i) by {
        FindIndexUnique(o.store, body.id.value, i);
      }
      assert o.store[i := o.store[i].(status := body.status.value)] == o.store;
    }
  }

  /** The first position holding an id is what `FindIndex` returns. */
  lemma FindIndexUnique(store: seq<Recommendation>, id: string, i: nat)
    requires i < |store| && store[i].id == id
    requires forall j :: 0 <= j < i ==> store[j].id != id
    ensures FindIndex(store, id) == Some(i)
  {
  }

  /** After a successful patch, listing by the new status finds the patched
      recommendation. */
  lemma PatchThenListByStatus(store: seq<Recommendation>, body: PatchBody)
    requires Patch(store, body).response.Updated?
    requires body.status.value != "all"
    ensures Patch(store, body).response.recommendation
         in List(Patch(store, body).store, Query(body.status, None, None)).recommendations
  {
    var o := Patch(store, body);
    var i :| 0 <= i < |store| && UpdatedAt(store, o, i, body);
    ListContents(o.store, Query(body.status, None, None));
    assert Matches(o.store[i], Query(body.status, None, None));
  }
}

=== FILE: seqs.dfy ===
/** Order-preserving filtering and counting over sequences: the model of
    JavaScript's `Array.prototype.filter` and of `filter(...).length`. */
module Seqs {

  /** `r` can be obtained from `s` by deleting elements, keeping the order
      of the rest (greedy matching of `r`'s head against `s`'s head). */
  predicate IsSubsequence<T(==)>(r: seq<T>, s: seq<T>)
    decreases |s|
  {
    if r == [] then true
    else if s == [] then false
    else if r[0] == s[0] then IsSubsequence(r[1..], s[1..])
    else IsSubsequence(r, s[1..])
  }

  /** The elements of `s` satisfying `p`, in their original order. */
  function Filter<T(==)>(p: T -> bool, s: seq<T>): (r: seq<T>)
    ensures |r| <= |s|
    ensures forall i :: 0 <= i < |r| ==> p(r[i]) && r[i] in s
    ensures forall i :: 0 <= i < |s| && p(s[i]) ==> s[i] in r
    ensures IsSubsequence(r, s)
  {
    if s == [] then []
    else if p(s[0]) then [s[0]] + Filter(p, s[1..])
    else Filter(p, s[1..])
  }

  /** How many elements of `s` satisfy `p`. */
  function Count<T>(p: T -> bool, s: seq<T>): (n: nat)
    ensures n <= |s|
    ensures n == 0 <==> forall i :: 0 <= i < |s| ==> !p(s[i])
    ensures n == |s| <==> forall i :: 0 <= i < |s| ==> p(s[i])
  {
    if s == [] then 0
    else (if p(s[0]) then 1 else 0) + Count(p, s[1..])
  }

  /** Filtering is oblivious to everything but the predicate's values on `s`. */
  lemma {:induction false} FilterExt<T>(p: T -> bool, q: T -> bool, s: seq<T>)
    requires forall i :: 0 <= i < |s| ==> p(s[i]) == q(s[i])
    ensures Filter(p, s) == Filter(q, s)
  {
    if s != [] {
      FilterExt(p, q, s[1..]);
    }
  }

  /** A filter that rejects nothing is the identity. */
  lemma {:induction false} FilterKeepsAll<T>(p: T -> bool, s: seq<T>)
    requires forall i :: 0 <= i < |s| ==> p(s[i])
    ensures Filter(p, s) == s
  {
    if s != [] {
      FilterKeepsAll(p, s[1..]);
      assert [s[0]] + s[1..] == s;
    }
  }

  /** Filtering by `p` and then by `q` is filtering once by their conjunction. */
  lemma {:induction false} FilterFilter<T>(p: T -> bool, q: T -> bool, pq: T -> bool, s: seq<T>)
    requires forall i :: 0 <= i < |s| ==> pq(s[i]) == (p(s[i]) && q(s[i]))
    ensures Filter(q, Filter(p, s)) == Filter(pq, s)
  {
    if s != [] {
      FilterFilter(p, q, pq, s[1..]);
      if p(s[0]) {
        var rest := Filter(p, s[1..]);
        assert ([s[0]] + rest)[1..] == rest;
      }
    }
  }

  /** Filtering a sequence with a new head `x` in front. */
  lemma FilterCons<T>(p: T -> bool, x: T, s: seq<T>)
    ensures Filter(p, [x] + s) == (if p(x) then [x] + Filter(p, s) else Filter(p, s))
  {
    assert ([x] + s)[1..] == s;
  }

  /** Counting is the length of the filtered sequence. */
  lemma {:induction false} CountIsFilterLength<T>(p: T -> bool, s: seq<T>)
    ensures Count(p, s) == |Filter(p, s)|
  {
    if s != [] {
      CountIsFilterLength(p, s[1..]);
    }
  }

  /** A subsequence of `s` whose elements all satisfy `p` is no longer than
      the number of elements of `s` satisfying `p`. */
  lemma {:induction false} SubsequenceCountBound<T>(p: T -> bool, r: seq<T>, s: seq<T>)
    requires IsSubsequence(r, s)
    requires forall i :: 0 <= i < |r| ==> p(r[i])
    ensures |r| <= Count(p, s)
    decreases |s|
  {
    if r != [] && s != [] {
      if r[0] == s[0] {
        SubsequenceCountBound(p, r[1..], s[1..]);
      } else {
        SubsequenceCountBound(p, r, s[1..]);
      }
    }
  }

  /** Filter's contract determines its result: an order-preserving selection
      of elements satisfying `p`, as many as satisfy `p`, is the filter. */
  lemma {:induction false} FilterUnique<T>(p: T -> bool, r: seq<T>, s: seq<T>)
    requires IsSubsequence(r, s)
    requires forall i :: 0 <= i < |r| ==> p(r[i])
    requires |r| == Count(p, s)
    ensures r == Filter(p, s)
    decreases |s|
  {
    CountIsFilterLength(p, s);
    if s != [] && r != [] {
      if r[0] == s[0] {
        FilterUnique(p, r[1..], s[1..]);
        assert r == [r[0]] + r[1..];
      } else if p(s[0]) {
        SubsequenceCountBound(p, r, s[1..]);
        assert false;
      } else {
        FilterUnique(p, r, s[1..]);
      }
    }
  }

  /** If `p` implies `q` on `s`, fewer elements satisfy `p` than `q`. */
  lemma {:induction false} CountMonotone<T>(p: T -> bool, q: T -> bool, s: seq<T>)
    requires forall i :: 0 <= i < |s| ==> p(s[i]) ==> q(s[i])
    ensures Count(p, s) <= Count(q, s)
  {
    if s != [] {
      CountMonotone(p, q, s[1..]);
    }
  }

  /** Counting over a disjoint split of a predicate adds up. */
  lemma {:induction false} CountSplit<T>(p: T -> bool, q: T -> bool, pq: T -> bool, s: seq<T>)
    requires forall i :: 0 <= i < |s| ==> !(p(s[i]) && q(s[i]))
    requires forall i :: 0 <= i < |s| ==> pq(s[i]) == (p(s[i]) || q(s[i]))
    ensures Count(pq, s) == Count(p, s) + Count(q, s)
  {
    if s != [] {
      CountSplit(p, q, pq, s[1..]);
    }
  }

  /** Dropping the head of a subsequence leaves a subsequence. */
  lemma {:induction false} SubsequenceDropHead<T>(r: seq<T>, s: seq<T>)
    requires r != [] && IsSubsequence(r, s)
    ensures IsSubsequence(r[1..], s)
    decreases |s|, 0
  {
    if r[0] == s[0] {
      SubsequenceCons(s[0], r[1..], s[1..]);
      assert [s[0]] + s[1..] == s;
    } else {
      SubsequenceDropHead(r, s[1..]);
      SubsequenceCons(s[0], r[1..], s[1..]);
      assert [s[0]] + s[1..] == s;
    }
  }

  /** A subsequence of `s` is a subsequence of `s` with anything in front. */
  lemma {:induction false} SubsequenceCons<T>(x: T, r: seq<T>, s: seq<T>)
    requires IsSubsequence(r, s)
    ensures IsSubsequence(r, [x] + s)
    decreases |s|, 1
  {
    assert ([x] + s)[1..] == s;
    if r != [] && r[0] == x {
      SubsequenceDropHead(r, s);
    }
  }

  /** Every prefix of a subsequence of `s` is a subsequence of `s`. */
  lemma {:induction false} SubsequencePrefix<T>(r: seq<T>, s: seq<T>, n: nat)
    requires n <= |r| && IsSubsequence(r, s)
    ensures IsSubsequence(r[..n], s)
    decreases |s|
  {
    if n > 0 && s != [] {
      if r[0] == s[0] {
        SubsequencePrefix(r[1..], s[1..], n - 1);
        assert r[..n][1..] == r[1..][..n - 1];
      } else {
        SubsequencePrefix(r, s[1..], n);
      }
    }
  }

  /** Putting the same element in front of both keeps a subsequence. */
  lemma SubsequenceConsBoth<T>(x: T, r: seq<T>, s: seq<T>)
    requires IsSubsequence(r, s)
    ensures IsSubsequence([x] + r, [x] + s)
  {
    assert ([x] + r)[1..] == r;
    assert ([x] + s)[1..] == s;
  }
}
